=== FILE: README.md ===
# web-crawler-rs: deduplication, admission and the crawl loop in Dafny

This project models the core of `web-crawler-rs`, a same-host web crawler.
Given a seed URL, the crawler visits every page on the seed's host that it
can reach. It respects robots.txt, never schedules a URL twice (the seed
excepted) and never extracts links from the same page body twice.

The model is functional. Each store is a `set` that is threaded through pure
functions. External libraries become function-valued parameters:

- the HTTP client, as `Site.fetch`;
- the robots.txt matcher, as `Filtering.RobotsMatcher`;
- the HTML parser, `Url::parse` and SHA-256, as the fields of `HtmlParsing.Scraper`.

The asynchronous crawl loop becomes one sequential FIFO worklist.

Files and modules:

- `basics.dfy` (`Basics`): `Option` and `Result`.
- `urls.dfy` (`Urls`): a parsed URL with every component of its serialisation: scheme, userinfo, host, port, path, query and fragment. Two URLs are the same key only when all of them agree, as for `url::Url`, so URLs that differ only in their query are different keys. `HostOrEmpty` is `host_str().unwrap_or("")`.
- `types.dfy` (`Types`): the `CrawlerError` variants of `src/types.rs`.
- `store.dfy` (`Stores`): the insert-only store of `src/store.rs`, including a poisoned lock.
- `url_filter.dfy` (`Filtering`): `UrlFilter::new` and `UrlFilter::filter`. `Admission` is a set-algebra reference definition. `Filter` is the code's iteration in any order over the candidate set, proved equal to it.
- `html_parser.dfy` (`HtmlParsing`): `parse`, `visited_before` and `extract_urls`.
- `printer.dfy` (`Printing`): the text `Printer::print` writes. `SplitLines` reads that text back line by line.
- `crawler.dfy` (`Crawling`): `Crawler::process` and `Crawler::run` as a worklist over an abstract site. Termination is proved with the lexicographic measure (same-host URLs of the site not yet in the URL store, queue length).

Three behaviours of the code are easy to misread, and the model follows the code in each:

- A poisoned store lock makes `insert` return `false`. Callers therefore treat the item as already seen. The URL filter drops the URL and the parser drops the page's links. This is the conservative fallback: a URL may be skipped, but never fetched again.
- The seed is scheduled without passing through the filter, so it is not recorded in the URL store when it is scheduled. If a page links back to it and robots.txt allows the seed, the filter admits it and the seed is processed a second time. "Every URL is fetched at most once" therefore holds for every URL except the seed, which is fetched at most twice. `Crawling.Run` states exactly this.
- The robots.txt body is whatever the startup fetch returned. That fetch is unwrapped, so a fetch error panics, and a non-success response's body is used as the ruleset. In this model the robots text is simply an input.

## Model

| member | source | states |
|---|---|---|
| `Stores.New` | src/store.rs:12-16 | a new store is empty and its lock is healthy |
| `Stores.Insert` | src/store.rs:19-28 | on a healthy lock, returns true iff the item was absent and afterwards holds it; only the item is added and nothing is removed; on a poisoned lock, returns false and changes nothing |
| `Stores.InsertAllGrows` | src/store.rs:11-29 | any sequence of inserts only grows the store; a healthy store ends up holding exactly the old items plus the inserted ones; a poisoned store stays as it was |
| `Stores.InsertTwice` | src/store.rs:36-41 | from a new store, distinct `a` and `b` are both new, a second `a` is reported seen, and that second insert leaves the store unchanged |
| `Filtering.New` | src/url_filter.rs:13-19 | a new filter keeps its subdomain and robots text, and starts with an empty, healthy URL store |
| `Filtering.Admission` | src/url_filter.rs:25-44 | the output is a subset of the input; every output URL has exactly the subdomain as host (a host-less URL counts as ""), is allowed for agent "*", was absent from the store before and is present after; on a healthy store every such URL is output; the store grows by exactly the output; a poisoned store admits nothing |
| `Filtering.Filter` | src/url_filter.rs:25-45 | checking host and robots first, then inserting the survivors into the store in any order and keeping those reported new, gives exactly `Admission` |
| `Filtering.AdmittedHostIsExact` | src/url_filter.rs:29 | for a non-empty subdomain, every admitted URL has that very host, so host-less URLs and sibling hosts are never admitted |
| `Filtering.RejectedUnlessAllThree` | src/url_filter.rs:26-43 | a URL that fails the host check, the robots check or the not-seen-before check is not admitted; if it was not already stored, it is not recorded |
| `Filtering.RefilterAdmitsOnlyNew` | src/url_filter.rs:125-139 | filtering the same input a second time admits nothing; adding one new eligible URL to that input admits exactly that URL |
| `Filtering.AdmissionComposes` | src/url_filter.rs:37-43 | filtering batch `a` and then batch `b` admits the same URLs in total, and leaves the same filter, as filtering `a + b` at once |
| `HtmlParsing.NewParser` | src/html_parser.rs:7-10 | a new parser has seen no page digest |
| `HtmlParsing.HrefUrls` | src/html_parser.rs:43-46 | a URL is extracted iff some anchor has an href that `Url::parse` turns into it; anchors without an href, and hrefs that do not parse, contribute nothing |
| `HtmlParsing.ExtractUrls` | src/html_parser.rs:40-47 | the links of a body are exactly the URLs that the hrefs of the document's `a` elements parse to |
| `HtmlParsing.VisitedBefore` | src/html_parser.rs:25-30 | on a healthy store, reports seen iff the body's digest was already stored, and afterwards the digest is stored whatever the answer; a poisoned store reports seen and records nothing |
| `HtmlParsing.Parse` | src/html_parser.rs:14-22 | the links are always a subset of the body's extracted URLs; for a body whose digest is new they are exactly the URLs its anchors' hrefs parse to; for a body whose digest was already stored (or a poisoned store) they are empty |
| `HtmlParsing.SameBodyTwice` | src/html_parser.rs:79-84 | the same body is new the first time and a duplicate the second, so the second parse returns no links; the key is the body alone, so this holds whatever URL served it |
| `HtmlParsing.DistinctBodiesAreNew` | src/html_parser.rs:72-77 | two bodies with different digests are each reported new on first sight |
| `HtmlParsing.ExtractSkipsRelativeAndMissingHrefs` | src/html_parser.rs:86-92 | from two absolute links, one relative link and one anchor without an href, exactly the two absolute URLs are extracted |
| `Printing.Print` | src/printer.rs:9-19 | the text starts with the URL and a newline, always ends with "\n\n", and is the URL followed by "\n\n" when there are no links |
| `Printing.PrintIsTerminate` | src/printer.rs:10-17 | the text is the URL line, one `--<link>` line per link in order, and an empty line, each line ending in a newline |
| `Printing.SplitTerminate` | src/printer.rs:12-17 | splitting at newlines recovers the lines that were written, as long as no line contains a newline |
| `Printing.PrintedLines` | src/printer.rs:10-17 | read back, the text has 1 + \|links\| lines (the URL, then `--` followed by each link) and then one blank line |
| `Crawling.Enumerate` | src/crawler.rs:77-79 | iterating over the filter's output yields each admitted URL exactly once |
| `Crawling.Process` | src/crawler.rs:61-83 | a failed fetch or a non-success status prints nothing, sends nothing and changes no state; after a successful page, the printed links are the unfiltered `parse` output, and the URLs sent are exactly the filter's survivors, each sent once |
| `Crawling.ProcessedStep` | src/crawler.rs:69-79 | on a finite site, processing the seed or a URL of the site grows the URL store by exactly the URLs it sends; these were new, are on the crawl's host and lie in the site |
| `Crawling.PrintedStep` | src/crawler.rs:69-79 | one processed URL is printed exactly when its page is fetched with a success status; the page's body digest is then recorded, and the print holds all of the page's links if that digest was new and none if it was already recorded; without a print the parser is unchanged; every printed link on the crawl's host that robots.txt allows is in the URL store afterwards, whether admitted now or earlier |
| `Crawling.SentStep` | src/crawler.rs:69-79 | a URL that processing adds to the URL store (and so schedules) is a link of that step's print and is allowed by robots.txt; a step without a print leaves the filter unchanged |
| `Crawling.NewBodyIffNoEarlierTwin` | src/html_parser.rs:24-30 | a print counts as the first of its page body exactly when no earlier print is of a page with the same digest, the key the parser's digest store dedups on |
| `Crawling.Step` | src/crawler.rs:36-46 | dequeuing and processing one URL keeps the loop invariant, including that the prints are one per successfully fetched processed URL in processing order, that every recorded URL is allowed by robots.txt and a link of some print, every allowed same-host printed link is recorded, and the parser's digest store holds exactly the printed pages' digests; either the URL store grows within the finite site or the queue shrinks |
| `Crawling.Run` | src/crawler.rs:17-58 | a seed without a host fails with `SubdomainError` and schedules nothing; otherwise the crawl succeeds on any finite site; the seed is processed first; every processed URL is on the seed's host; no URL other than the seed is processed twice, and the seed at most twice; at most 1 + \|site\| URLs are processed; every print is of a processed, successfully fetched page, and there is exactly one print per successful fetch, in processing order; every URL processed after the seed is allowed by robots.txt and is a link of some print; a print holds all of its page's links when no earlier print has the same body digest, and none when one has; every processed page fetched successfully was printed; every printed link on the seed's host that robots.txt allows was processed |
| `Crawling.RepeatsOnlyAtHead` | src/crawler.rs:24-26 | a schedule whose tail has no repeats holds any URL other than its head at most once, and its head at most twice |

## Left out

- HTTP fetching (src/html_downloader.rs) is network I/O. It is the `fetch` parameter: a URL maps to a transport error or to a status and a body.
- Robots.txt matching is the external `robotstxt` library. It is the `RobotsMatcher` parameter, always asked about agent "*". The library's own behaviour is not modelled.
- SHA-256 and its hex formatting are the `sha256` parameter. Two bodies with the same digest are the same page, as in the code. Hash collisions are not reasoned about.
- HTML document parsing, `Url::parse`, `Url::join` and URL normalisation are library calls. They appear as the `anchors` and `parseUrl` parameters and as the fields of the `Url` datatype.
- Concurrency is not modelled. This covers the spawned tasks, the shared `Arc`s, the store mutex, the 100-slot channel and the one-second sleep-and-recheck exit. The model is sequential. In particular it does not capture the race in which the poll exits while spawned tasks are still running. The code has no limit on concurrent workers, so there is none to model.
- Fetching robots.txt at startup is left out: building the `robots.txt` URL with `seed.join`, and the `unwrap` that panics on a fetch error. The robots text is an input of `Crawling.Run`, so the `ParseError` that a failing `seed.join("robots.txt")` would return (src/crawler.rs:29) is never produced.
- The channel is not modelled, so `NotScheduled` is never produced. In the code it comes from sending the seed (src/crawler.rs:24-26), and that send cannot fail while the receiver is held and the fresh channel has room.
- Crawling.Run: termination is proved for a finite site only. This is a site where the allowed same-host links of the seed's page and of the set's pages all lie in a given finite set. A site where infinitely many distinct allowed same-host URLs are reachable has no such set; on it the code does not terminate either. The model states nothing about such a site.
- Crawling.Run: coverage and closure hold for the sequential worklist. The code's poll may exit while spawned tasks are still running; see the concurrency line above.
- Crawling.Run: records what is printed as (URL, link set) pairs rather than as text. `Printing.Print` models the text for any iteration order of the links.
- src/url_scheduler.rs is not declared in src/main.rs and does not compile, so it is not part of this model.
- Argument handling in src/main.rs is not modelled, and neither is writing to stdout. The `CrawlerError` variants are mirrored in `Types`.
- The I/O error path of `writeln!` in the printer is not modelled.

=== FILE: basics.dfy ===
/** Small failure-carrying datatypes shared by every module of the model. */
module Basics {

  /** An optional value: Rust's `Option<T>`. */
  datatype Option<+T> = None | Some(value: T)

  /** Either a value or an error: Rust's `Result<T, E>`. */
  datatype Result<+T, +E> = Success(value: T) | Failure(error: E)
}

=== FILE: crawler.dfy ===
/** The crawl loop of src/crawler.rs, run sequentially: a FIFO worklist that
    starts with the seed, and for each dequeued URL fetches the page, parses
    it, records what would be printed, and enqueues the links the URL filter
    admits. */
module Crawling {
  import opened Basics
  import opened Urls
  import opened Types
  import Filtering
  import HtmlParsing

  /** A fetched page: the HTTP status code and the body text. */
  datatype Page = Page(status: nat, body: string)

  /** `StatusCode::is_success`: a 2xx status. */
  predicate IsSuccess(status: nat)
  {
    200 <= status <= 299
  }

  /** Everything the crawl consults outside its own state:
      `fetch`     — `HtmlDownloader::fetch`; `None` is a transport error;
      `robotsTxt` — the body fetched from `seed.join("robots.txt")`;
      `robots`    — the robots.txt matcher;
      `scraper`   — the HTML and URL parsers and the digest function. */
  datatype Site = Site(
    fetch: Url -> Option<Page>,
    robotsTxt: string,
    robots: Filtering.RobotsMatcher,
    scraper: HtmlParsing.Scraper)

  /** The shared components every worker uses. */
  datatype Components = Components(parser: HtmlParsing.HtmlParser, filter: Filtering.UrlFilter)

  /** One `Printer::print` call: the page URL and the links printed under it. */
  datatype Emission = Emission(source: Url, links: set<Url>)

  /** What processing one URL did: the components after it, what it printed,
      and the URLs it sent to the scheduler, in sending order. */
  datatype Outcome = Outcome(parts: Components, printed: Option<Emission>, sent: seq<Url>)

  /** What a drained crawl did: every URL processed, in order, and every print. */
  datatype Crawl = Crawl(processed: seq<Url>, printed: seq<Emission>)

  /** The page at `url` if the fetch succeeded with a success status. */
  function SuccessfulPage(site: Site, url: Url): Option<Page>
  {
    match site.fetch(url)
    case Some(page) => if IsSuccess(page.status) then Some(page) else None
    case None => None
  }

  /** All links a page could ever contribute: those of its body, if it is fetched successfully. */
  function Outlinks(site: Site, url: Url): set<Url>
  {
    match SuccessfulPage(site, url)
    case Some(page) => HtmlParsing.ExtractUrls(site.scraper, page.body)
    case None => {}
  }

  /** A finite site as the crawl sees it: every link on the host that
      robots.txt allows, held by the seed's page or by a page of `universe`,
      lies in `universe`. Pages the crawl cannot reach and links it would
      never admit are unconstrained. */
  ghost predicate Closed(site: Site, seed: Url, host: string, universe: set<Url>)
  {
    forall u, v ::
      ((u == seed || u in universe) && v in Outlinks(site, u) &&
       HostOrEmpty(v) == host && Filtering.Allowed(site.robotsTxt, site.robots, v)) ==> v in universe
  }

  predicate Distinct<T(==)>(s: seq<T>)
  {
    forall i, j :: 0 <= i < j < |s| ==> s[i] != s[j]
  }

  /** The elements of `s`, each exactly once, in some order. */
  ghost predicate Enumerates(q: seq<Url>, s: set<Url>)
  {
    Distinct(q) && |q| == |s| && forall x :: x in q <==> x in s
  }

  /** Iterating over a set: its elements in the set's (arbitrary) order. */
  method Enumerate(s: set<Url>) returns (q: seq<Url>)
    ensures Enumerates(q, s)
  {
    q := [];
    var rest := s;
    while rest != {}
      invariant rest <= s
      invariant forall x :: x in q <==> x in s && x !in rest
      invariant Distinct(q)
      invariant |q| + |rest| == |s|
      decreases rest
    {
      var x :| x in rest;
      q := q + [x];
      rest := rest - {x};
    }
  }

  /** What `Crawler::process` does for one URL: a failed fetch or a
      non-success status does nothing; otherwise the page's parsed links are
      printed unfiltered and the filter's survivors are sent to the
      scheduler, each once. */
  ghost predicate Processed(site: Site, parts: Components, url: Url, o: Outcome)
  {
    match SuccessfulPage(site, url)
    case None => o == Outcome(parts, None, [])
    case Some(page) =>
      var parsed := HtmlParsing.Parse(parts.parser, site.scraper, page.body);
      var admitted := Filtering.Admission(parts.filter, site.robots, parsed.links);
      && o.parts == Components(parsed.parser, admitted.filter)
      && o.printed == Some(Emission(url, parsed.links))
      && Enumerates(o.sent, admitted.urls)
  }

  /** `Crawler::process`: fetch, parse, print, filter and send, as `Processed` describes. */
  method Process(site: Site, parts: Components, url: Url) returns (o: Outcome)
    ensures Processed(site, parts, url, o)
  {
    var fetched := site.fetch(url);
    if fetched.None? || !IsSuccess(fetched.value.status) {
      return Outcome(parts, None, []);
    }
    var parsed := HtmlParsing.Parse(parts.parser, site.scraper, fetched.value.body);
    var admitted := Filtering.Filter(parts.filter, site.robots, parsed.links);
    var sent := Enumerate(admitted.urls);
    o := Outcome(Components(parsed.parser, admitted.filter), Some(Emission(url, parsed.links)), sent);
  }

  /** How one processing step changes the URL store: it grows by exactly
      the URLs sent, which were not in it before, lie in `universe` and are on
      the crawl's host; nothing else about the filter changes. */
  ghost predicate GrowsBySent(parts: Components, url: Url, o: Outcome, universe: set<Url>)
  {
    var before := parts.filter.urlStore.items;
    var added := o.parts.filter.urlStore.items - before;
    && o.parts.filter.urlStore.items == before + added
    && Enumerates(o.sent, added)
    && added <= universe
    && (forall x :: x in added ==> HostOrEmpty(x) == parts.filter.subdomain)
    && o.parts.filter == parts.filter.(urlStore := o.parts.filter.urlStore)
    && !o.parts.filter.urlStore.poisoned
    && (o.printed.Some? ==> o.printed.value.source == url)
  }

  /** On a healthy filter and a finite site, every processing step grows the
      URL store by exactly what it sends. */
  lemma ProcessedStep(site: Site, seed: Url, parts: Components, url: Url, o: Outcome, universe: set<Url>)
    requires Processed(site, parts, url, o)
    requires !parts.filter.urlStore.poisoned
    requires parts.filter.robotsTxt == site.robotsTxt
    requires url == seed || url in universe
    requires Closed(site, seed, parts.filter.subdomain, universe)
    ensures GrowsBySent(parts, url, o, universe)
  {
    match SuccessfulPage(site, url)
    case None =>
    case Some(page) =>
      var parsed := HtmlParsing.Parse(parts.parser, site.scraper, page.body);
      var admitted := Filtering.Admission(parts.filter, site.robots, parsed.links);
      assert admitted.urls == o.parts.filter.urlStore.items - parts.filter.urlStore.items;
      assert parsed.links <= Outlinks(site, url);
  }

  /** What one print can hold: the links of a successfully fetched page,
      or none when its body was seen before. */
  ghost predicate PrintBound(site: Site, e: Emission)
  {
    SuccessfulPage(site, e.source).Some? &&
    (e.links == Outlinks(site, e.source) || e.links == {})
  }

  /** The digest the parser records for the page at `u`, if it is fetched successfully. */
  function Digest(site: Site, u: Url): Option<string>
  {
    match SuccessfulPage(site, u)
    case Some(page) => Some(site.scraper.sha256(page.body))
    case None => None
  }

  /** The digests of the printed pages. */
  function Digests(site: Site, printed: seq<Emission>): set<string>
    decreases |printed|
  {
    if printed == [] then {}
    else
      var last := printed[|printed| - 1];
      var d := match Digest(site, last.source) case Some(x) => {x} case None => {};
      Digests(site, printed[..|printed| - 1]) + d
  }

  /** Whether the `k`-th print is the first of its page body: its page has a
      digest that no earlier print's page has (`NewBodyIffNoEarlierTwin`). */
  predicate NewBody(site: Site, printed: seq<Emission>, k: int)
    requires 0 <= k < |printed|
  {
    var d := Digest(site, printed[k].source);
    d.Some? && d.value !in Digests(site, printed[..k])
  }

  /** `Digests` holds exactly the digests of the printed pages. */
  lemma {:induction false} InDigests(site: Site, printed: seq<Emission>, d: string)
    ensures d in Digests(site, printed) <==>
      exists j :: 0 <= j < |printed| && Digest(site, printed[j].source) == Some(d)
    decreases |printed|
  {
    if printed != [] {
      var n := |printed| - 1;
      var init := printed[..n];
      InDigests(site, init, d);
      if d in Digests(site, init) {
        var j :| 0 <= j < |init| && Digest(site, init[j].source) == Some(d);
        assert printed[j] == init[j];
      }
      if exists j :: 0 <= j < |printed| && Digest(site, printed[j].source) == Some(d) {
        var j :| 0 <= j < |printed| && Digest(site, printed[j].source) == Some(d);
        if j < n {
          assert init[j] == printed[j];
        }
      }
    }
  }

  /** A print of a successfully fetched page is the first of its body
      exactly when no earlier print is of a page with the same digest. */
  lemma NewBodyIffNoEarlierTwin(site: Site, printed: seq<Emission>, k: int)
    requires 0 <= k < |printed| && Digest(site, printed[k].source).Some?
    ensures NewBody(site, printed, k) <==>
      forall j :: 0 <= j < k ==> Digest(site, printed[j].source) != Digest(site, printed[k].source)
  {
    var d := Digest(site, printed[k].source).value;
    InDigests(site, printed[..k], d);
    forall j | 0 <= j < k
      ensures printed[..k][j] == printed[j]
    {
    }
  }

  /** Every link some print holds. */
  function Linked(printed: seq<Emission>): set<Url>
    decreases |printed|
  {
    if printed == [] then {}
    else Linked(printed[..|printed| - 1]) + printed[|printed| - 1].links
  }

  /** `Linked` is the union of the printed link sets. */
  lemma {:induction false} InLinked(printed: seq<Emission>, v: Url)
    ensures v in Linked(printed) <==> exists k :: 0 <= k < |printed| && v in printed[k].links
    decreases |printed|
  {
    if printed != [] {
      var n := |printed| - 1;
      var init := printed[..n];
      InLinked(init, v);
      if v in Linked(init) {
        var k :| 0 <= k < |init| && v in init[k].links;
        assert printed[k] == init[k];
      }
      if exists k :: 0 <= k < |printed| && v in printed[k].links {
        var k :| 0 <= k < |printed| && v in printed[k].links;
        if k < n {
          assert init[k] == printed[k];
        }
      }
    }
  }

  /** The processed URLs whose fetch succeeds with a success status, in
      processing order: the URLs `Crawler::process` prints. */
  function Fetched(site: Site, processed: seq<Url>): seq<Url>
    decreases |processed|
  {
    if processed == [] then []
    else
      var last := processed[|processed| - 1];
      Fetched(site, processed[..|processed| - 1]) + if SuccessfulPage(site, last).Some? then [last] else []
  }

  /** `Fetched` keeps exactly the successfully fetched processed URLs. */
  lemma {:induction false} InFetched(site: Site, processed: seq<Url>, u: Url)
    ensures u in Fetched(site, processed) <==> u in processed && SuccessfulPage(site, u).Some?
    decreases |processed|
  {
    if processed != [] {
      var n := |processed| - 1;
      InFetched(site, processed[..n], u);
      assert processed == processed[..n] + [processed[n]];
    }
  }

  /** How one processing step admits: without a print the filter is
      unchanged; with one, every URL newly recorded by the filter is a link
      of that print that robots.txt allows. */
  ghost predicate SendsFromPrint(site: Site, parts: Components, o: Outcome)
  {
    && (o.printed.None? ==> o.parts.filter == parts.filter)
    && (o.printed.Some? ==>
          forall x :: x in o.parts.filter.urlStore.items && x !in parts.filter.urlStore.items ==>
            x in o.printed.value.links && Filtering.Allowed(site.robotsTxt, site.robots, x))
  }

  /** The filter only records links of the page just printed that robots.txt allows. */
  lemma SentStep(site: Site, parts: Components, url: Url, o: Outcome)
    requires Processed(site, parts, url, o)
    requires parts.filter.robotsTxt == site.robotsTxt
    ensures SendsFromPrint(site, parts, o)
  {
    match SuccessfulPage(site, url)
    case None =>
    case Some(page) =>
      var parsed := HtmlParsing.Parse(parts.parser, site.scraper, page.body);
      var admitted := Filtering.Admission(parts.filter, site.robots, parsed.links);
      assert o.parts.filter.urlStore.items == parts.filter.urlStore.items + admitted.urls;
  }

  /** How one processing step prints: exactly when the page is fetched
      successfully. The page's digest is then recorded, and the print holds
      all of the page's links if the digest is new and none if it was
      recorded before. Every printed link the filter would accept is in the
      URL store afterwards, whether admitted now or earlier. Without a print
      the parser is unchanged. */
  ghost predicate PrintsPage(site: Site, parts: Components, url: Url, o: Outcome)
  {
    var digests := parts.parser.htmlStore.items;
    && (o.printed.Some? <==> SuccessfulPage(site, url).Some?)
    && !o.parts.parser.htmlStore.poisoned
    && (o.printed.None? ==> o.parts.parser == parts.parser)
    && (o.printed.Some? ==>
          var d := Digest(site, url).value;
          o.parts.parser.htmlStore.items == digests + {d} &&
          (d !in digests ==> o.printed.value.links == Outlinks(site, url)) &&
          (d in digests ==> o.printed.value.links == {}))
    && (o.printed.Some? ==>
          PrintBound(site, o.printed.value) &&
          forall v ::
            (v in o.printed.value.links && HostOrEmpty(v) == parts.filter.subdomain &&
             Filtering.Allowed(site.robotsTxt, site.robots, v)) ==> v in o.parts.filter.urlStore.items)
  }

  /** On a healthy filter and parser, a processing step prints every
      successful page, with its links exactly when its body is new, and
      every printed link it does not admit was already recorded. */
  lemma PrintedStep(site: Site, parts: Components, url: Url, o: Outcome)
    requires Processed(site, parts, url, o)
    requires !parts.filter.urlStore.poisoned
    requires !parts.parser.htmlStore.poisoned
    requires parts.filter.robotsTxt == site.robotsTxt
    ensures PrintsPage(site, parts, url, o)
  {
  }

  /** Appending a batch of new, distinct URLs keeps the schedule's tail
      distinct and in one-to-one correspondence with the URL store. */
  lemma ScheduleGrows(scheduled: seq<Url>, items: set<Url>, sent: seq<Url>, added: set<Url>)
    requires |scheduled| == 1 + |items|
    requires forall i :: 1 <= i < |scheduled| ==> scheduled[i] in items
    requires Distinct(scheduled[1..])
    requires forall x :: x in items ==> x in scheduled
    requires Enumerates(sent, added) && added !! items
    ensures |scheduled + sent| == 1 + |items + added|
    ensures forall i :: 1 <= i < |scheduled + sent| ==> (scheduled + sent)[i] in items + added
    ensures Distinct((scheduled + sent)[1..])
    ensures forall x :: x in items + added ==> x in scheduled + sent
  {
  }

  /** A sequence whose tail holds no repeats holds each element at most once,
      except its head, which it holds at most twice. */
  lemma {:induction false} RepeatsOnlyAtHead<T>(s: seq<T>, x: T)
    requires |s| > 0 && Distinct(s[1..])
    ensures x != s[0] ==> multiset(s)[x] <= 1
    ensures multiset(s)[x] <= 2
  {
    assert s == [s[0]] + s[1..];
    DistinctOccursOnce(s[1..], x);
  }

  lemma {:induction false} DistinctOccursOnce<T>(s: seq<T>, x: T)
    requires Distinct(s)
    ensures multiset(s)[x] <= 1
    ensures x !in s ==> multiset(s)[x] == 0
    decreases |s|
  {
    if s != [] {
      assert s == [s[0]] + s[1..];
      assert Distinct(s[1..]);
      DistinctOccursOnce(s[1..], x);
      if x == s[0] {
        assert x !in s[1..];
      }
    }
  }

  /** The sequential crawl's state: the scheduler's queue, the shared
      components, and what has been processed and printed so far. */
  datatype CrawlState = CrawlState(queue: seq<Url>, parts: Components, processed: seq<Url>, printed: seq<Emission>)

  /** What holds between iterations of the crawl loop. `scheduled` is every
      URL sent to the scheduler so far: the seed first, then exactly the URLs
      the filter recorded, each once. */
  ghost predicate Invariant(seed: Url, site: Site, universe: set<Url>, st: CrawlState, scheduled: seq<Url>)
  {
    && Scheduled(seed, site, universe, st, scheduled)
    && Reported(site, st)
  }

  /** The scheduler's bookkeeping: what was processed and what is queued
      together are the seed and then the recorded URLs, each once, all on
      the seed's host. */
  ghost predicate Scheduled(seed: Url, site: Site, universe: set<Url>, st: CrawlState, scheduled: seq<Url>)
  {
    var store := st.parts.filter.urlStore;
    && seed.host.Some?
    && scheduled == st.processed + st.queue
    && |scheduled| >= 1 && scheduled[0] == seed
    && st.parts.filter.subdomain == seed.host.value
    && st.parts.filter.robotsTxt == site.robotsTxt
    && !store.poisoned
    && store.items <= universe
    && |scheduled| == 1 + |store.items|
    && (forall i :: 1 <= i < |scheduled| ==> scheduled[i] in store.items)
    && (forall x :: x in store.items ==> x in scheduled)
    && Distinct(scheduled[1..])
    && (forall i :: 0 <= i < |scheduled| ==> HostOrEmpty(scheduled[i]) == seed.host.value)
    && (forall k :: 0 <= k < |st.printed| ==> st.printed[k].source in st.processed)
  }

  /** Everything the loop invariant says about the prints and the URLs they
      lead to. */
  ghost predicate Reported(site: Site, st: CrawlState)
  {
    && Covered(site, st)
    && Deduplicated(site, st)
    && Sourced(site, st)
    && PrintsFetched(site, st)
  }

  /** Processing the head of the queue keeps what the prints promise. */
  lemma AdvanceReports(site: Site, st: CrawlState, o: Outcome)
    requires st.queue != [] && Reported(site, st)
    requires PrintsPage(site, st.parts, st.queue[0], o)
    requires SendsFromPrint(site, st.parts, o)
    requires o.printed.Some? ==> o.printed.value.source == st.queue[0]
    requires st.parts.filter.urlStore.items <= o.parts.filter.urlStore.items
    requires o.parts.filter.subdomain == st.parts.filter.subdomain
    ensures Reported(site, Advance(st, o))
  {
    AdvanceCovers(site, st, o);
    AdvanceDedups(site, st, o);
    AdvanceSources(site, st, o);
    AdvanceFetched(site, st, o);
  }

  /** Every URL the filter has recorded is allowed by robots.txt and is a
      link of some print. */
  ghost predicate Sourced(site: Site, st: CrawlState)
  {
    forall x :: x in st.parts.filter.urlStore.items ==>
      Filtering.Allowed(site.robotsTxt, site.robots, x) && x in Linked(st.printed)
  }

  /** The prints are one per successfully fetched processed URL, in order. */
  ghost predicate PrintsFetched(site: Site, st: CrawlState)
  {
    && |st.printed| == |Fetched(site, st.processed)|
    && forall k :: 0 <= k < |st.printed| ==> st.printed[k].source == Fetched(site, st.processed)[k]
  }

  /** Processing the head of the queue keeps every recorded URL allowed and
      linked from a print: new ones are links of the new print. */
  lemma AdvanceSources(site: Site, st: CrawlState, o: Outcome)
    requires st.queue != [] && Sourced(site, st)
    requires SendsFromPrint(site, st.parts, o)
    requires st.parts.filter.urlStore.items <= o.parts.filter.urlStore.items
    ensures Sourced(site, Advance(st, o))
  {
    if o.printed.Some? {
      var p' := st.printed + [o.printed.value];
      assert p'[..|p'| - 1] == st.printed;
      assert Linked(p') == Linked(st.printed) + o.printed.value.links;
    }
  }

  /** Processing the head of the queue keeps the prints in step with the
      successful fetches: it prints exactly when its fetch succeeds. */
  lemma AdvanceFetched(site: Site, st: CrawlState, o: Outcome)
    requires st.queue != [] && PrintsFetched(site, st)
    requires o.printed.Some? <==> SuccessfulPage(site, st.queue[0]).Some?
    requires o.printed.Some? ==> o.printed.value.source == st.queue[0]
    ensures PrintsFetched(site, Advance(st, o))
  {
    var st' := Advance(st, o);
    assert st'.processed[..|st'.processed| - 1] == st.processed;
    assert st'.processed[|st'.processed| - 1] == st.queue[0];
  }

  /** What the parser's digest store says about the prints so far: it is
      healthy, it holds exactly the digests of the printed pages, and each
      print holds all of its page's links if it is the first of its body
      and none otherwise. */
  ghost predicate Deduplicated(site: Site, st: CrawlState)
  {
    && !st.parts.parser.htmlStore.poisoned
    && st.parts.parser.htmlStore.items == Digests(site, st.printed)
    && FirstBodiesFull(site, st.printed)
  }

  /** Each print holds all of its page's links if it is the first of its
      body, and none otherwise. */
  ghost predicate FirstBodiesFull(site: Site, printed: seq<Emission>)
  {
    forall k {:trigger NewBody(site, printed, k)} :: 0 <= k < |printed| ==>
      (NewBody(site, printed, k) ==> printed[k].links == Outlinks(site, printed[k].source)) &&
      (!NewBody(site, printed, k) ==> printed[k].links == {})
  }

  /** A print appended after `p` is the first of its body exactly when its
      digest is not among those of `p`; so it keeps every print's links in
      step with whether it is the first of its body. */
  lemma FirstBodiesAppend(site: Site, p: seq<Emission>, e: Emission, d: string)
    requires FirstBodiesFull(site, p)
    requires Digest(site, e.source) == Some(d)
    requires d !in Digests(site, p) ==> e.links == Outlinks(site, e.source)
    requires d in Digests(site, p) ==> e.links == {}
    ensures FirstBodiesFull(site, p + [e])
    ensures Digests(site, p + [e]) == Digests(site, p) + {d}
  {
    var p', n := p + [e], |p|;
    assert p'[..n] == p;
    forall k | 0 <= k < |p'|
      ensures (NewBody(site, p', k) ==> p'[k].links == Outlinks(site, p'[k].source)) &&
              (!NewBody(site, p', k) ==> p'[k].links == {})
    {
      if k < n {
        assert p'[..k] == p[..k] && p'[k] == p[k];
        assert NewBody(site, p', k) == NewBody(site, p, k);
      }
    }
  }

  /** Processing the head of the queue keeps the digest store in step with
      the prints: a new print is the first of its body exactly when its
      digest was not yet recorded. */
  lemma AdvanceDedups(site: Site, st: CrawlState, o: Outcome)
    requires st.queue != [] && Deduplicated(site, st)
    requires PrintsPage(site, st.parts, st.queue[0], o)
    requires o.printed.Some? ==> o.printed.value.source == st.queue[0]
    ensures Deduplicated(site, Advance(st, o))
  {
    if o.printed.Some? {
      var d := Digest(site, st.queue[0]).value;
      FirstBodiesAppend(site, st.printed, o.printed.value, d);
    }
  }

  /** What the prints so far promise: each is of a successfully fetched
      page; each printed link the filter would accept has been recorded, and
      so scheduled; and each successfully fetched processed URL was printed. */
  ghost predicate Covered(site: Site, st: CrawlState)
  {
    var store := st.parts.filter.urlStore.items;
    && (forall k :: 0 <= k < |st.printed| ==> PrintBound(site, st.printed[k]))
    && (forall k, v ::
          (0 <= k < |st.printed| && v in st.printed[k].links &&
           HostOrEmpty(v) == st.parts.filter.subdomain && Filtering.Allowed(site.robotsTxt, site.robots, v)) ==> v in store)
    && (forall u :: u in st.processed && SuccessfulPage(site, u).Some? ==>
          exists k :: 0 <= k < |st.printed| && st.printed[k].source == u)
  }

  /** Processing the head of the queue keeps the prints covered: the new
      print, if any, is of the head, and the store only grows. */
  lemma AdvanceCovers(site: Site, st: CrawlState, o: Outcome)
    requires st.queue != [] && Covered(site, st)
    requires PrintsPage(site, st.parts, st.queue[0], o)
    requires o.printed.Some? ==> o.printed.value.source == st.queue[0]
    requires st.parts.filter.urlStore.items <= o.parts.filter.urlStore.items
    requires o.parts.filter.subdomain == st.parts.filter.subdomain
    ensures Covered(site, Advance(st, o))
  {
    var st' := Advance(st, o);
    forall u | u in st'.processed && SuccessfulPage(site, u).Some?
      ensures exists k :: 0 <= k < |st'.printed| && st'.printed[k].source == u
    {
      if u in st.processed {
        var k :| 0 <= k < |st.printed| && st.printed[k].source == u;
        assert st'.printed[k] == st.printed[k];
      } else {
        assert st'.printed[|st.printed|].source == u;
      }
    }
  }

  /** The state after processing the head of the queue with outcome `o`. */
  function Advance(st: CrawlState, o: Outcome): CrawlState
    requires st.queue != []
  {
    var printed := if o.printed.Some? then st.printed + [o.printed.value] else st.printed;
    CrawlState(st.queue[1..] + o.sent, o.parts, st.processed + [st.queue[0]], printed)
  }

  /** Processing the head of the queue keeps the loop invariant, and either
      grows the URL store within the universe or shrinks the queue. */
  lemma AdvanceKeepsInvariant(seed: Url, site: Site, universe: set<Url>, st: CrawlState, scheduled: seq<Url>, o: Outcome)
    requires Invariant(seed, site, universe, st, scheduled)
    requires st.queue != []
    requires GrowsBySent(st.parts, st.queue[0], o, universe)
    requires PrintsPage(site, st.parts, st.queue[0], o)
    requires SendsFromPrint(site, st.parts, o)
    ensures Invariant(seed, site, universe, Advance(st, o), scheduled + o.sent)
    ensures var before := st.parts.filter.urlStore.items;
            var after := o.parts.filter.urlStore.items;
            || (before < after && |universe - after| < |universe - before|)
            || (before == after && |st.queue[1..] + o.sent| < |st.queue|)
  {
    AdvanceSchedules(seed, site, universe, st, scheduled, o);
    AdvanceReports(site, st, o);
  }

  /** Processing the head of the queue keeps the scheduler's bookkeeping,
      and either grows the URL store within the universe or shrinks the queue. */
  lemma AdvanceSchedules(seed: Url, site: Site, universe: set<Url>, st: CrawlState, scheduled: seq<Url>, o: Outcome)
    requires Scheduled(seed, site, universe, st, scheduled)
    requires st.queue != []
    requires GrowsBySent(st.parts, st.queue[0], o, universe)
    ensures Scheduled(seed, site, universe, Advance(st, o), scheduled + o.sent)
    ensures var before := st.parts.filter.urlStore.items;
            var after := o.parts.filter.urlStore.items;
            || (before < after && |universe - after| < |universe - before|)
            || (before == after && |st.queue[1..] + o.sent| < |st.queue|)
  {
    var before := st.parts.filter.urlStore.items;
    var added := o.parts.filter.urlStore.items - before;
    ScheduleGrows(scheduled, before, o.sent, added);
    AdvanceShape(st, scheduled, o);
    HostsKept(scheduled, o.sent, added, seed.host.value);
    StoreMeasure(universe, before, added);
  }

  /** The FIFO bookkeeping of one step: the schedule is still what was
      processed followed by what is queued, and prints stay attributed. */
  lemma AdvanceShape(st: CrawlState, scheduled: seq<Url>, o: Outcome)
    requires st.queue != [] && scheduled == st.processed + st.queue
    requires forall k :: 0 <= k < |st.printed| ==> st.printed[k].source in st.processed
    requires o.printed.Some? ==> o.printed.value.source == st.queue[0]
    ensures scheduled + o.sent == Advance(st, o).processed + Advance(st, o).queue
    ensures (scheduled + o.sent)[0] == scheduled[0]
    ensures var st' := Advance(st, o);
            forall k :: 0 <= k < |st'.printed| ==> st'.printed[k].source in st'.processed
  {
  }

  lemma HostsKept(scheduled: seq<Url>, sent: seq<Url>, added: set<Url>, host: string)
    requires forall i :: 0 <= i < |scheduled| ==> HostOrEmpty(scheduled[i]) == host
    requires forall x :: x in sent ==> x in added
    requires forall x :: x in added ==> HostOrEmpty(x) == host
    ensures forall i :: 0 <= i < |scheduled + sent| ==> HostOrEmpty((scheduled + sent)[i]) == host
  {
  }

  /** Adding new URLs of the universe to the store shrinks what remains of it. */
  lemma StoreMeasure(universe: set<Url>, before: set<Url>, added: set<Url>)
    requires added <= universe && added !! before
    ensures added != {} ==> before < before + added && |universe - (before + added)| < |universe - before|
  {
    if added != {} {
      var x :| x in added;
      var rest, remaining := universe - (before + added), universe - before;
      assert remaining == rest + (remaining - rest) && rest !! (remaining - rest);
      assert x in remaining - rest;
    }
  }

  /** One iteration of the crawl loop: dequeue the head URL, process it, and
      enqueue what it sent. Either the URL store grows (within the finite
      universe) or it stays put and the queue shrinks. */
  method Step(seed: Url, site: Site, ghost universe: set<Url>, st: CrawlState, ghost scheduled: seq<Url>)
    returns (st': CrawlState, ghost scheduled': seq<Url>)
    requires Invariant(seed, site, universe, st, scheduled)
    requires Closed(site, seed, seed.host.value, universe)
    requires st.queue != []
    ensures Invariant(seed, site, universe, st', scheduled')
    ensures st'.processed == st.processed + [st.queue[0]]
    ensures var before := st.parts.filter.urlStore.items;
            var after := st'.parts.filter.urlStore.items;
            || (before < after && |universe - after| < |universe - before|)
            || (before == after && |st'.queue| < |st.queue|)
  {
    var o := Process(site, st.parts, st.queue[0]);
    assert st.queue[0] == scheduled[|st.processed|];
    ProcessedStep(site, seed, st.parts, st.queue[0], o, universe);
    PrintedStep(site, st.parts, st.queue[0], o);
    SentStep(site, st.parts, st.queue[0], o);
    AdvanceKeepsInvariant(seed, site, universe, st, scheduled, o);
    st' := Advance(st, o);
    scheduled' := scheduled + o.sent;
  }

  /** What a drained crawl processed: the seed first, then each URL of the
      store once, all on the seed's host and at most 1 + |universe| of them. */
  lemma DrainedCounts(seed: Url, site: Site, universe: set<Url>, st: CrawlState, scheduled: seq<Url>)
    requires Invariant(seed, site, universe, st, scheduled) && st.queue == []
    ensures |st.processed| >= 1 && st.processed[0] == seed
    ensures forall i :: 0 <= i < |st.processed| ==> HostOrEmpty(st.processed[i]) == seed.host.value
    ensures Distinct(st.processed[1..])
    ensures forall u :: u != seed ==> multiset(st.processed)[u] <= 1
    ensures multiset(st.processed)[seed] <= 2
    ensures |st.processed| <= 1 + |universe|
  {
    assert st.processed == scheduled;
    SubsetCardinality(st.parts.filter.urlStore.items, universe);
    forall u | u != seed
      ensures multiset(st.processed)[u] <= 1
    {
      RepeatsOnlyAtHead(st.processed, u);
    }
    RepeatsOnlyAtHead(st.processed, seed);
  }

  /** What a drained crawl printed: each print is of a processed page, and
      every allowed same-host link printed was itself processed. */
  lemma DrainedCovers(seed: Url, site: Site, universe: set<Url>, st: CrawlState, scheduled: seq<Url>)
    requires Invariant(seed, site, universe, st, scheduled) && st.queue == []
    ensures forall k :: 0 <= k < |st.printed| ==>
      st.printed[k].source in st.processed && PrintBound(site, st.printed[k])
    ensures forall u :: u in st.processed && SuccessfulPage(site, u).Some? ==>
      exists k :: 0 <= k < |st.printed| && st.printed[k].source == u
    ensures forall k, v ::
      (0 <= k < |st.printed| && v in st.printed[k].links &&
       HostOrEmpty(v) == seed.host.value && Filtering.Allowed(site.robotsTxt, site.robots, v)) ==> v in st.processed
  {
  }

  /** What a drained crawl printed for each page body: all of the page's
      links the first time the body is seen, and none after that. */
  lemma DrainedDedups(seed: Url, site: Site, universe: set<Url>, st: CrawlState, scheduled: seq<Url>)
    requires Invariant(seed, site, universe, st, scheduled)
    ensures forall k :: 0 <= k < |st.printed| ==>
      (NewBody(site, st.printed, k) ==> st.printed[k].links == Outlinks(site, st.printed[k].source)) &&
      (!NewBody(site, st.printed, k) ==> st.printed[k].links == {})
  {
  }

  /** What a drained crawl admitted: every URL processed after the seed is
      allowed by robots.txt and a link of some print, and the prints are one
      per successful fetch, in order. */
  lemma DrainedSources(seed: Url, site: Site, universe: set<Url>, st: CrawlState, scheduled: seq<Url>)
    requires Invariant(seed, site, universe, st, scheduled) && st.queue == []
    ensures forall i :: 1 <= i < |st.processed| ==>
      Filtering.Allowed(site.robotsTxt, site.robots, st.processed[i]) && st.processed[i] in Linked(st.printed)
    ensures |st.printed| == |Fetched(site, st.processed)|
    ensures forall k :: 0 <= k < |st.printed| ==> st.printed[k].source == Fetched(site, st.processed)[k]
  {
    assert st.processed == scheduled;
  }

  /** The state `Run` starts from, with only the seed queued, meets the loop
      invariant. */
  lemma Started(seed: Url, site: Site, universe: set<Url>, st: CrawlState)
    requires seed.host.Some? ==> Closed(site, seed, seed.host.value, universe)
    requires seed.host.Some?
    requires st == CrawlState([seed], Components(HtmlParsing.NewParser(), Filtering.New(seed.host.value, site.robotsTxt)), [], [])
    ensures Invariant(seed, site, universe, st, [seed])
  {
  }

  /** Steps until the queue is empty (the `while let Some(url) = rx.recv()`
      loop run to the end); the invariant holds throughout. */
  method Drain(seed: Url, site: Site, ghost universe: set<Url>, st0: CrawlState, ghost scheduled0: seq<Url>)
    returns (st: CrawlState, ghost scheduled: seq<Url>)
    requires Invariant(seed, site, universe, st0, scheduled0)
    requires seed.host.Some? && Closed(site, seed, seed.host.value, universe)
    ensures Invariant(seed, site, universe, st, scheduled)
    ensures st.queue == []
  {
    st, scheduled := st0, scheduled0;
    while st.queue != []
      invariant Invariant(seed, site, universe, st, scheduled)
      decreases |universe - st.parts.filter.urlStore.items|, |st.queue|
    {
      st, scheduled := Step(seed, site, universe, st, scheduled);
    }
  }

  /** `Crawler::run`. A seed without a host fails with `SubdomainError`
      before anything is scheduled. Otherwise the seed is scheduled first,
      unfiltered and unrecorded; every URL processed is on the seed's host;
      no URL but the seed is processed twice, the seed at most twice; on a
      finite site the loop drains after at most 1 + |universe| URLs and the
      crawl succeeds; and it has then printed every page it fetched
      successfully and processed every allowed same-host link it printed. */
  method Run(seed: Url, site: Site, ghost universe: set<Url>) returns (r: Result<Crawl, CrawlerError>)
    requires seed.host.Some? ==> Closed(site, seed, seed.host.value, universe)
    ensures seed.host.None? <==> r.Failure?
    ensures r.Failure? ==> r.error == SubdomainError(seed)
    ensures r.Success? ==> |r.value.processed| >= 1 && r.value.processed[0] == seed
    ensures r.Success? ==>
      forall i :: 0 <= i < |r.value.processed| ==> HostOrEmpty(r.value.processed[i]) == seed.host.value
    ensures r.Success? ==> Distinct(r.value.processed[1..])
    ensures r.Success? ==> forall u :: u != seed ==> multiset(r.value.processed)[u] <= 1
    ensures r.Success? ==> multiset(r.value.processed)[seed] <= 2
    ensures r.Success? ==> |r.value.processed| <= 1 + |universe|
    // every print is of a processed, successfully fetched page
    ensures r.Success? ==>
      forall k :: 0 <= k < |r.value.printed| ==>
        r.value.printed[k].source in r.value.processed &&
        SuccessfulPage(site, r.value.printed[k].source).Some?
    // one print per successful fetch, in processing order
    ensures r.Success? ==> |r.value.printed| == |Fetched(site, r.value.processed)|
    ensures r.Success? ==>
      forall k :: 0 <= k < |r.value.printed| ==>
        r.value.printed[k].source == Fetched(site, r.value.processed)[k]
    // soundness: every URL processed after the seed went through the filter,
    // so robots.txt allows it and some print holds it as a link
    ensures r.Success? ==>
      forall i :: 1 <= i < |r.value.processed| ==>
        Filtering.Allowed(site.robotsTxt, site.robots, r.value.processed[i]) &&
        r.value.processed[i] in Linked(r.value.printed)
    // a print holds all of its page's links when it is the first of its
    // body (no earlier print has the same digest), and none otherwise
    ensures r.Success? ==>
      forall k :: 0 <= k < |r.value.printed| ==>
        (NewBody(site, r.value.printed, k) ==>
           r.value.printed[k].links == Outlinks(site, r.value.printed[k].source)) &&
        (!NewBody(site, r.value.printed, k) ==> r.value.printed[k].links == {})
    // coverage: every processed page that was fetched successfully was printed
    ensures r.Success? ==>
      forall u :: u in r.value.processed && SuccessfulPage(site, u).Some? ==>
        exists k :: 0 <= k < |r.value.printed| && r.value.printed[k].source == u
    // closure: every printed link on the seed's host that robots.txt allows was processed
    ensures r.Success? ==>
      forall k, v ::
        (0 <= k < |r.value.printed| && v in r.value.printed[k].links &&
         HostOrEmpty(v) == seed.host.value && Filtering.Allowed(site.robotsTxt, site.robots, v)) ==> v in r.value.processed
  {
    if seed.host.None? {
      return Failure(SubdomainError(seed));
    }
    var parts := Components(HtmlParsing.NewParser(), Filtering.New(seed.host.value, site.robotsTxt));
    var st := CrawlState([seed], parts, [], []);
    ghost var scheduled := [seed];
    Started(seed, site, universe, st);
    st, scheduled := Drain(seed, site, universe, st, scheduled);
    DrainedCounts(seed, site, universe, st, scheduled);
    DrainedCovers(seed, site, universe, st, scheduled);
    DrainedDedups(seed, site, universe, st, scheduled);
    DrainedSources(seed, site, universe, st, scheduled);
    return Success(Crawl(st.processed, st.printed));
  }

  lemma SubsetCardinality(a: set<Url>, b: set<Url>)
    requires a <= b
    ensures |a| <= |b|
  {
    assert b == a + (b - a);
  }
}

=== FILE: html_parser.dfy ===
/** Content-level page deduplication and link extraction (src/html_parser.rs).

    A page's links are returned only the first time its body digest is seen.
    HTML parsing, URL parsing and SHA-256 are external libraries and appear
    here as the function-valued fields of `Scraper`. */
module HtmlParsing {
  import opened Basics
  import opened Urls
  import Stores

  /** An `<a>` element of a parsed document, with its `href` attribute if it has one. */
  datatype Anchor = Anchor(href: Option<string>)

  /** The libraries the parser calls:
      `anchors`  — the `<a>` elements of `Html::parse_document(body)`, in document order;
      `parseUrl` — `Url::parse`, which accepts absolute URLs only;
      `sha256`   — the hex SHA-256 digest of a body. */
  datatype Scraper = Scraper(
    anchors: string -> seq<Anchor>,
    parseUrl: string -> Option<Url>,
    sha256: string -> string)

  /** The parser's state: the digests of every body seen so far. */
  datatype HtmlParser = HtmlParser(htmlStore: Stores.Store<string>)

  /** The outcome of `visited_before`: the answer and the parser after the call. */
  datatype Visit = Visit(seen: bool, parser: HtmlParser)

  /** The outcome of `parse`: the links returned and the parser after the call. */
  datatype Parsed = Parsed(links: set<Url>, parser: HtmlParser)

  /** `HtmlParser::default`: no body seen yet. */
  function NewParser(): (p: HtmlParser)
    ensures p.htmlStore.items == {} && !p.htmlStore.poisoned
  {
    HtmlParser(Stores.New())
  }

  /** Whether anchor `a` contributes URL `u`: it has an href that parses to `u`. */
  predicate Yields(a: Anchor, parseUrl: string -> Option<Url>, u: Url)
  {
    a.href.Some? && parseUrl(a.href.value) == Some(u)
  }

  /** The filter-map over anchors: the URLs of those hrefs that parse. */
  function HrefUrls(anchors: seq<Anchor>, parseUrl: string -> Option<Url>): (r: set<Url>)
    ensures forall u :: u in r <==> exists i :: 0 <= i < |anchors| && Yields(anchors[i], parseUrl, u)
    decreases |anchors|
  {
    if anchors == [] then {}
    else
      var rest := HrefUrls(anchors[1..], parseUrl);
      assert forall u, i :: 0 < i < |anchors| && Yields(anchors[i], parseUrl, u) ==>
        Yields(anchors[1..][i - 1], parseUrl, u);
      var a := anchors[0];
      if a.href.Some? && parseUrl(a.href.value).Some? then {parseUrl(a.href.value).value} + rest
      else rest
  }

  /** `extract_urls`: the absolute URLs the body's anchors point to. */
  function ExtractUrls(lib: Scraper, body: string): (r: set<Url>)
    ensures forall u :: u in r <==>
      exists i :: 0 <= i < |lib.anchors(body)| && Yields(lib.anchors(body)[i], lib.parseUrl, u)
  {
    HrefUrls(lib.anchors(body), lib.parseUrl)
  }

  /** `visited_before`: records the body's digest and reports whether it was already recorded. */
  function VisitedBefore(p: HtmlParser, lib: Scraper, body: string): (r: Visit)
    ensures !p.htmlStore.poisoned ==>
      (r.seen <==> lib.sha256(body) in p.htmlStore.items) &&
      !r.parser.htmlStore.poisoned &&
      r.parser.htmlStore.items == p.htmlStore.items + {lib.sha256(body)}
    // a poisoned store reports every page as seen and records nothing
    ensures p.htmlStore.poisoned ==> r.seen && r.parser == p
  {
    var ins := Stores.Insert(p.htmlStore, lib.sha256(body));
    Visit(!ins.isNew, HtmlParser(ins.store))
  }

  /** `parse`: the body's links if its digest is new, and nothing otherwise. */
  function Parse(p: HtmlParser, lib: Scraper, body: string): (r: Parsed)
    ensures r.parser == VisitedBefore(p, lib, body).parser
    ensures r.links <= ExtractUrls(lib, body)
    ensures !p.htmlStore.poisoned && lib.sha256(body) !in p.htmlStore.items ==>
      forall u :: u in r.links <==>
        exists i :: 0 <= i < |lib.anchors(body)| && Yields(lib.anchors(body)[i], lib.parseUrl, u)
    ensures p.htmlStore.poisoned || lib.sha256(body) in p.htmlStore.items ==> r.links == {}
  {
    var visit := VisitedBefore(p, lib, body);
    if visit.seen then Parsed({}, visit.parser)
    else Parsed(ExtractUrls(lib, body), visit.parser)
  }

  /** The `visit_same_page` test, and dedup independent of the URL: the same
      body is new the first time and a duplicate the second, so a body served
      at two URLs yields its links only once. */
  lemma SameBodyTwice(p: HtmlParser, lib: Scraper, body: string)
    requires !p.htmlStore.poisoned && lib.sha256(body) !in p.htmlStore.items
    ensures var first := Parse(p, lib, body);
            var second := Parse(first.parser, lib, body);
            !VisitedBefore(p, lib, body).seen &&
            VisitedBefore(first.parser, lib, body).seen &&
            first.links == ExtractUrls(lib, body) && second.links == {} &&
            second.parser == first.parser
  {
  }

  /** The `visit_new_page` test: bodies with different digests are each new on first sight. */
  lemma DistinctBodiesAreNew(lib: Scraper, b1: string, b2: string)
    requires lib.sha256(b1) != lib.sha256(b2)
    ensures var v1 := VisitedBefore(NewParser(), lib, b1);
            !v1.seen && !VisitedBefore(v1.parser, lib, b2).seen
  {
  }

  /** The `extract_urls` test: of an absolute link, a relative link, a second
      absolute link and an anchor without href, only the two absolute links
      are extracted. */
  lemma ExtractSkipsRelativeAndMissingHrefs(lib: Scraper, body: string, abs1: string, rel: string, abs2: string)
    requires lib.anchors(body) == [Anchor(Some(abs1)), Anchor(Some(rel)), Anchor(Some(abs2)), Anchor(None)]
    requires lib.parseUrl(abs1).Some? && lib.parseUrl(abs2).Some? && lib.parseUrl(rel).None?
    requires lib.parseUrl(abs1) != lib.parseUrl(abs2)
    ensures ExtractUrls(lib, body) == {lib.parseUrl(abs1).value, lib.parseUrl(abs2).value}
    ensures |ExtractUrls(lib, body)| == 2
  {
    var links := ExtractUrls(lib, body);
    var u1, u2 := lib.parseUrl(abs1).value, lib.parseUrl(abs2).value;
    assert Yields(lib.anchors(body)[0], lib.parseUrl, u1);
    assert Yields(lib.anchors(body)[2], lib.parseUrl, u2);
    assert links == {u1, u2};
  }
}

=== FILE: printer.dfy ===
/** The text `Printer::print` writes for one page (src/printer.rs): the page's
    URL on a line, one `--<link>` line per link, and the blank line that
    `writeln!` adds after the buffer. */
module Printing {

  /** The lines contributed by the links, in iteration order. */
  function LinkLines(links: seq<string>): (out: string)
    ensures |out| == 3 * |links| + Length(links)
    ensures out != [] ==> out[|out| - 1] == '\n'
    decreases |links|
  {
    if links == [] then "" else "--" + links[0] + "\n" + LinkLines(links[1..])
  }

  /** Total length of the link strings. */
  function Length(links: seq<string>): nat
    decreases |links|
  {
    if links == [] then 0 else |links[0]| + Length(links[1..])
  }

  /** The buffer built from the URL and links, followed by the newline `writeln!` adds. */
  function Print(url: string, links: seq<string>): (out: string)
    // the URL line comes first
    ensures |out| >= |url| + 2 && out[..|url| + 1] == url + "\n"
    // the text always ends with a blank line
    ensures out[|out| - 2..] == "\n\n"
    ensures links == [] ==> out == url + "\n\n"
  {
    var buffer := url + "\n" + LinkLines(links);
    buffer + "\n"
  }

  /** The links as they appear on their lines: each with a `--` prefix. */
  function Dashed(links: seq<string>): (lines: seq<string>)
    ensures |lines| == |links|
    ensures forall i :: 0 <= i < |links| ==> lines[i] == "--" + links[i]
  {
    seq(|links|, i requires 0 <= i < |links| => "--" + links[i])
  }

  /** Lines written one after another, each followed by a newline. */
  function Terminate(lines: seq<string>): string
    decreases |lines|
  {
    if lines == [] then "" else lines[0] + "\n" + Terminate(lines[1..])
  }

  /** The position of the first newline in `s`, or `|s|` if there is none. */
  function NewlineIndex(s: string): (i: nat)
    ensures i <= |s|
    ensures '\n' !in s[..i]
    ensures i < |s| ==> s[i] == '\n'
    decreases |s|
  {
    if s == [] || s[0] == '\n' then 0
    else
      var i := 1 + NewlineIndex(s[1..]);
      assert s[..i] == [s[0]] + s[1..][..i - 1];
      i
  }

  /** A reader of printed text: splits it at every newline; an unterminated
      final segment is a line of its own. */
  function SplitLines(s: string): seq<string>
    decreases |s|
  {
    if s == [] then []
    else
      var i := NewlineIndex(s);
      if i == |s| then [s] else [s[..i]] + SplitLines(s[i + 1..])
  }

  /** Splitting undoes `Terminate` for lines that hold no newline. */
  lemma {:induction false} SplitTerminate(lines: seq<string>)
    requires forall i :: 0 <= i < |lines| ==> '\n' !in lines[i]
    ensures SplitLines(Terminate(lines)) == lines
    decreases |lines|
  {
    if lines != [] {
      var s := Terminate(lines);
      var l := lines[0];
      assert s == l + "\n" + Terminate(lines[1..]);
      var i := NewlineIndex(s);
      assert s[|l|] == '\n';
      assert s[..i] == l;
      assert s[i + 1..] == Terminate(lines[1..]);
      SplitTerminate(lines[1..]);
    }
  }

  /** The printed buffer is exactly the URL line, the dashed link lines and an empty line. */
  lemma {:induction false} PrintIsTerminate(url: string, links: seq<string>)
    ensures Print(url, links) == Terminate([url] + Dashed(links) + [""])
  {
    LinkLinesIsTerminate(links);
    assert ([url] + Dashed(links) + [""])[1..] == Dashed(links) + [""];
  }

  lemma {:induction false} LinkLinesIsTerminate(links: seq<string>)
    ensures LinkLines(links) + "\n" == Terminate(Dashed(links) + [""])
    decreases |links|
  {
    if links == [] {
      assert Dashed(links) + [""] == [""];
    } else {
      LinkLinesIsTerminate(links[1..]);
      assert (Dashed(links) + [""])[1..] == Dashed(links[1..]) + [""];
    }
  }

  /** Read back line by line, the text of one page has 1 + |links| lines
      (the URL, then `--<link>` for each link) followed by one blank line,
      as long as neither the URL nor a link holds a newline. */
  lemma PrintedLines(url: string, links: seq<string>)
    requires '\n' !in url
    requires forall i :: 0 <= i < |links| ==> '\n' !in links[i]
    ensures var lines := SplitLines(Print(url, links));
            |lines| == |links| + 2 &&
            lines[0] == url &&
            (forall i :: 0 <= i < |links| ==> lines[i + 1] == "--" + links[i]) &&
            lines[|links| + 1] == ""
  {
    var lines := [url] + Dashed(links) + [""];
    forall i | 0 <= i < |lines|
      ensures '\n' !in lines[i]
    {
      if 0 < i <= |links| {
        assert lines[i] == "--" + links[i - 1];
        assert '\n' !in links[i - 1];
      }
    }
    PrintIsTerminate(url, links);
    SplitTerminate(lines);
  }
}

=== FILE: store.dfy ===
/** The insert-only, lock-guarded set of src/store.rs.

    The mutex is reduced to a flag: `poisoned` stands for a lock that a
    panicking holder left poisoned, in which case `insert` reports the item
    as already seen and records nothing. */
module Stores {

  datatype Store<T> = Store(items: set<T>, poisoned: bool)

  /** `Store::new`: an empty, healthy store. */
  function New<T>(): (s: Store<T>)
    ensures s.items == {} && !s.poisoned
  {
    Store({}, false)
  }

  /** The outcome of one `insert`: whether the item was new, and the store after the call. */
  datatype Inserted<T> = Inserted(isNew: bool, store: Store<T>)

  /** `Store::insert`: records `item` and reports whether it was absent before. */
  function Insert<T>(s: Store<T>, item: T): (r: Inserted<T>)
    // a healthy store answers "new" exactly for an absent item and then holds it
    ensures !s.poisoned ==> (r.isNew <==> item !in s.items)
    ensures !s.poisoned ==> item in r.store.items && !r.store.poisoned
    // nothing but the item is added, and nothing is ever removed
    ensures s.items <= r.store.items
    ensures forall x :: x in r.store.items && x != item ==> x in s.items
    // a poisoned lock makes the item look seen and records nothing
    ensures s.poisoned ==> !r.isNew && r.store == s
  {
    if s.poisoned then Inserted(false, s)
    else Inserted(item !in s.items, Store(s.items + {item}, false))
  }

  /** The store after inserting every element of `xs`, in order. */
  function InsertAll<T>(s: Store<T>, xs: seq<T>): (r: Store<T>)
    decreases |xs|
  {
    if xs == [] then s else InsertAll(Insert(s, xs[0]).store, xs[1..])
  }

  /** There is no removal: any sequence of inserts only grows the store, and a
      healthy store ends up holding exactly the old items plus the inserted ones. */
  lemma {:induction false} InsertAllGrows<T>(s: Store<T>, xs: seq<T>)
    ensures s.items <= InsertAll(s, xs).items
    ensures s.poisoned ==> InsertAll(s, xs) == s
    ensures !s.poisoned ==>
      !InsertAll(s, xs).poisoned &&
      forall x :: x in InsertAll(s, xs).items <==> x in s.items || x in xs
    decreases |xs|
  {
    if xs != [] {
      var s' := Insert(s, xs[0]).store;
      InsertAllGrows(s', xs[1..]);
      assert forall x :: x in xs <==> x == xs[0] || x in xs[1..];
    }
  }

  /** The unit test of src/store.rs: two distinct items are both new on first
      sight, and the first one is reported seen on its second insertion,
      which leaves the store unchanged. */
  lemma InsertTwice<T>(a: T, b: T)
    requires a != b
    ensures var r1 := Insert(New(), a);
            var r2 := Insert(r1.store, b);
            var r3 := Insert(r2.store, a);
            r1.isNew && r2.isNew && !r3.isNew && r3.store == r2.store
  {
  }
}

=== FILE: types.dfy ===
/** The crawler's error type (src/types.rs). */
module Types {
  import opened Urls

  /** The four ways a crawl invocation can fail. */
  datatype CrawlerError =
    | NotScheduled(url: Url)
    | ParseError
    | SubdomainError(url: Url)
    | InputMalformed
}

=== FILE: url_filter.dfy ===
/** URL admission (src/url_filter.rs): a discovered link is admitted when its
    host is exactly the crawl's subdomain, robots.txt allows it for agent "*",
    and it has never been admitted before. Admitted links are recorded. */
module Filtering {
  import opened Urls
  import Stores

  /** The `robotstxt` matcher, an external library: given the robots.txt
      body, a user agent and a URL, whether that agent may fetch the URL. */
  type RobotsMatcher = (string, string, Url) -> bool

  /** The only user agent the crawler asks about. */
  const Agent: string := "*"

  datatype UrlFilter = UrlFilter(subdomain: string, urlStore: Stores.Store<Url>, robotsTxt: string)

  /** The result of one `filter` call: the admitted URLs and the filter after it. */
  datatype Filtered = Filtered(urls: set<Url>, filter: UrlFilter)

  /** `UrlFilter::new`: a filter for one subdomain with an empty URL store. */
  function New(subdomain: string, robotsTxt: string): (f: UrlFilter)
    ensures f.subdomain == subdomain && f.robotsTxt == robotsTxt
    ensures f.urlStore.items == {} && !f.urlStore.poisoned
  {
    UrlFilter(subdomain, Stores.New(), robotsTxt)
  }

  /** Host check: exact string equality, with a host-less URL read as "". */
  predicate SameHost(f: UrlFilter, u: Url)
  {
    HostOrEmpty(u) == f.subdomain
  }

  /** `UrlFilter::allowed`: robots.txt consulted for agent "*". */
  predicate Allowed(robotsTxt: string, robots: RobotsMatcher, u: Url)
  {
    robots(robotsTxt, Agent, u)
  }

  /** The first pass of `filter`: the URLs that survive the host and robots checks. */
  function Eligible(f: UrlFilter, robots: RobotsMatcher, urls: set<Url>): set<Url>
  {
    set u | u in urls && SameHost(f, u) && Allowed(f.robotsTxt, robots, u)
  }

  /** What one `filter` call admits, whatever order the set is visited in: the
      eligible URLs the store has not seen, which are then recorded. */
  function Admission(f: UrlFilter, robots: RobotsMatcher, urls: set<Url>): (r: Filtered)
    // soundness: only input URLs, on the exact host, allowed, and new
    ensures r.urls <= urls
    ensures forall u :: u in r.urls ==>
      HostOrEmpty(u) == f.subdomain && Allowed(f.robotsTxt, robots, u) &&
      u !in f.urlStore.items && u in r.filter.urlStore.items
    // completeness on a healthy store
    ensures !f.urlStore.poisoned ==>
      forall u ::
        (u in urls && HostOrEmpty(u) == f.subdomain && Allowed(f.robotsTxt, robots, u) &&
         u !in f.urlStore.items) ==> u in r.urls
    // the store grows by exactly the output: rejected URLs are never recorded
    ensures r.filter.urlStore.items == f.urlStore.items + r.urls
    ensures r.filter == f.(urlStore := r.filter.urlStore)
    ensures r.filter.urlStore.poisoned == f.urlStore.poisoned
    // a poisoned store admits nothing
    ensures f.urlStore.poisoned ==> r.urls == {}
  {
    if f.urlStore.poisoned then Filtered({}, f)
    else
      var unseen := Eligible(f, robots, urls) - f.urlStore.items;
      Filtered(unseen, f.(urlStore := Stores.Store(f.urlStore.items + unseen, false)))
  }

  /** `UrlFilter::filter`: keep the eligible URLs, then insert each into the
      store in the set's (arbitrary) iteration order, keeping those that were
      new. The result is the same for every iteration order. */
  method Filter(f: UrlFilter, robots: RobotsMatcher, urls: set<Url>) returns (r: Filtered)
    ensures r == Admission(f, robots, urls)
  {
    var candidates := Eligible(f, robots, urls);
    ghost var eligible := candidates;
    var store := f.urlStore;
    var kept: set<Url> := {};
    while candidates != {}
      invariant candidates <= eligible
      invariant f.urlStore.poisoned ==> store == f.urlStore && kept == {}
      invariant !f.urlStore.poisoned ==>
        !store.poisoned &&
        kept == (eligible - candidates) - f.urlStore.items &&
        store.items == f.urlStore.items + (eligible - candidates)
      decreases candidates
    {
      var u :| u in candidates;
      var ins := Stores.Insert(store, u);
      if ins.isNew {
        kept := kept + {u};
      }
      store := ins.store;
      candidates := candidates - {u};
    }
    r := Filtered(kept, f.(urlStore := store));
  }

  /** For a non-empty subdomain the host check is exact: every admitted URL
      has that very host, so host-less URLs and sibling hosts such as
      `web.example.com` for `example.com` are rejected. */
  lemma AdmittedHostIsExact(f: UrlFilter, robots: RobotsMatcher, urls: set<Url>, u: Url)
    requires f.subdomain != ""
    requires u in Admission(f, robots, urls).urls
    ensures u.host == Basics.Some(f.subdomain)
  {
  }

  /** A URL failing any one of the three checks is rejected. */
  lemma RejectedUnlessAllThree(f: UrlFilter, robots: RobotsMatcher, urls: set<Url>, u: Url)
    requires u in urls
    requires HostOrEmpty(u) != f.subdomain || !Allowed(f.robotsTxt, robots, u) || u in f.urlStore.items
    ensures u !in Admission(f, robots, urls).urls
    ensures u in Admission(f, robots, urls).filter.urlStore.items <==> u in f.urlStore.items
  {
  }

  /** Filtering the same input again admits nothing; adding one fresh eligible
      URL to it makes exactly that URL the output (the `filter_visited_urls` test). */
  lemma RefilterAdmitsOnlyNew(f: UrlFilter, robots: RobotsMatcher, urls: set<Url>, extra: Url)
    requires !f.urlStore.poisoned
    requires extra !in urls && extra !in f.urlStore.items
    requires HostOrEmpty(extra) == f.subdomain && Allowed(f.robotsTxt, robots, extra)
    ensures var f1 := Admission(f, robots, urls).filter;
            Admission(f1, robots, urls).urls == {} &&
            Admission(f1, robots, urls + {extra}).urls == {extra}
  {
  }

  /** The order in which two batches arrive does not matter: filtering `a`
      then `b` admits the same URLs overall, and leaves the same store, as
      filtering their union at once. */
  lemma AdmissionComposes(f: UrlFilter, robots: RobotsMatcher, a: set<Url>, b: set<Url>)
    ensures var ra := Admission(f, robots, a);
            var rb := Admission(ra.filter, robots, b);
            var rab := Admission(f, robots, a + b);
            ra.urls + rb.urls == rab.urls && rb.filter == rab.filter
  {
  }
}

=== FILE: urls.dfy ===
/** Parsed URLs, reduced to the parts the crawler inspects. */
module Urls {
  import opened Basics

  /** A parsed absolute URL with every component of its serialisation. Two
      URLs are the same key exactly when all components agree, as the `url`
      crate compares whole serialisations: URLs that differ only in their
      port, query, fragment or userinfo are different keys. Only the host is
      inspected by the crawler; the other components are carried along. */
  datatype Url = Url(
    scheme: string,
    username: string,
    password: Option<string>,
    host: Option<string>,
    port: Option<nat>,
    path: string,
    query: Option<string>,
    fragment: Option<string>)

  /** `url.host_str().unwrap_or("")`: a URL without a host compares as "". */
  function HostOrEmpty(u: Url): string
  {
    match u.host
    case Some(h) => h
    case None => ""
  }
}
